=== FILE: README.md ===
# moheato heater controller — Dafny model

This project models the core of moheato. moheato is ESP8266 firmware that drives three electric heaters over the French pilot-wire ("fil pilote") convention and exposes a small REST API. The model has three parts:

- **`Heatrol`** (`heatrol.dfy`) is one heater. It has four orders: CONFORT, HORS GEL, ARRET and ECO. Two tables (`WavePlus`, `WaveMinus`) map each order to a pair of output levels. The record also holds the current and default order, the two pins and the label. The one callback slot is shared by every heater. `setOrder`, `toDefault`, `begin` and its overloads, the setters and the label lookup are pure transitions. `setOrder`, `toDefault` and `begin` also report whether the change callback ran. The getters (`getOrder`, `getDefaultOrder`, `getName`) are plain field reads of the record, so they cannot change state.
- **`ConfigStore`** (`config.dfy`) is the persisted settings object. It has the eight settings with their compiled-in defaults, one setter per field, `setDefault`, the constructor that loads from flash, and `save`. Flash is a map from path to stored file. A stored file either cannot be opened, or it has contents that parse as JSON (`Some(document)`) or do not (`None`). Valid JSON that is not an object, such as `[]`, parses and has none of the keys, so it is `Some` of the empty map and loads as all defaults.
- **`Firmware`** (`firmware.dfy`) is `src/main.cpp` reduced to its decisions. It covers the access-point/station choice with its in-memory fallback, `setup`, the route-to-zone mapping, and each REST handler. Each handler is a pure function from device state to status, body and new state. The radio and the flash enter as an environment value: whether the station connects, and how far a save gets.

`common.dfy` holds `Option` and the `uint8_t` / `int` widths.

The central invariant is `Heatrol.Consistent`: the order is one of the four, and the recorded line levels are its table entry. The model proves it for every heater from start-up through any sequence of requests (`Firmware.LinesAlwaysMatchOrder`).

Four behaviours of the source that the model keeps as they are:
- `setOrder` invokes the registered callback after the range test, whether or not the order was accepted (lib/heatrol/src/heatrol.cpp:52). The callback is not limited to actual changes.
- The display labels are "Confort", "Hors gel", "Arrêt" and "Eco" (lib/heatrol/src/heatrol.cpp:80).
- When the file exists but cannot be opened or parsed, the constructor returns before assigning anything (lib/config/src/config.cpp:16-26). The configuration comes from `new Config(...)`, so its `String` fields are empty and its scalar fields hold whatever memory held. This state is not the defaults, and its scalars are not guaranteed to be zero. The model passes those leftover scalar values in as `Residue`.
- `toDefault` is `setOrder(defaultOrder)` (lib/heatrol/src/heatrol.cpp:67-69), so it reaches the default only when the default is one of the four orders.

Before `begin`, a heater is in the state its global array gives it: zero-initialised, order CONFORT with both lines LOW. This is `Heatrol.Blank`, and it already satisfies the invariant.

## Model

| member | source | states |
|---|---|---|
| Heatrol.Index | lib/heatrol/src/heatrol.h:20 | each order's enum value lies in [0, ORDER_NB) |
| Heatrol.OrderOf | lib/heatrol/src/heatrol.h:17-20 | an integer denotes an order exactly when it is in [0, 4), and that order has this value |
| Heatrol.OrderEnumeration | lib/heatrol/src/heatrol.h:17-20 | the four orders and the values 0..3 correspond one to one; ORDER_NB is their count |
| Heatrol.SignalIsPilotWire | lib/heatrol/src/heatrol.cpp:45-46 | the two tables give CONFORT (LOW,LOW), HORS GEL (HIGH,LOW), ARRET (LOW,HIGH), ECO (HIGH,HIGH) |
| Heatrol.DecodeStates | lib/heatrol/src/heatrol.cpp:45-46 | any pair of line levels reads back as some order in range |
| Heatrol.SignalRoundTrip | lib/heatrol/src/heatrol.cpp:45-50 | the table encoding is a bijection between orders and level pairs: the lines determine the order and vice versa |
| Heatrol.BlankIsConsistent | lib/heatrol/src/heatrol.h:25-28 | a heater that has not been begun (zero-initialised global) already shows its order's levels |
| Heatrol.SetState | lib/heatrol/src/heatrol.cpp:88-93 | the recorded levels become the two given levels; order, pins, label and default are kept |
| Heatrol.SetOrder | lib/heatrol/src/heatrol.cpp:44-53 | an in-range order is stored and its table levels recorded, other fields unchanged; an out-of-range order changes nothing; the callback runs in both cases exactly when one is registered |
| Heatrol.SetOrderDrivesPilotWire | lib/heatrol/src/heatrol.cpp:44-50 | after `setOrder(o)` for any real order the heater is at `o` with o's pilot-wire levels |
| Heatrol.SetOrderPreservesConsistency | lib/heatrol/src/heatrol.cpp:48-51 | `setOrder` with any value keeps the lines equal to the table entry of the order |
| Heatrol.SetDefaultOrder | lib/heatrol/src/heatrol.cpp:40 | only the default order changes; order, levels, pins and label are untouched and no callback runs |
| Heatrol.SetName | lib/heatrol/src/heatrol.cpp:42 | only the label changes; no callback runs |
| Heatrol.ToDefault | lib/heatrol/src/heatrol.cpp:67-69 | with an in-range default the heater ends at exactly that default, consistent, with pins, label and default kept; with an out-of-range one it is unchanged; the callback runs whenever registered |
| Heatrol.ToDefaultReachesDefault | lib/heatrol/src/heatrol.cpp:67-73 | on a consistent heater, `isDefaultOrder()` holds after `toDefault` if and only if the default is in range |
| Heatrol.IsDefaultOrder | lib/heatrol/src/heatrol.cpp:71-73 | a heater at its default shows the same label as current and as default |
| Heatrol.IsDefaultOrderMeansToDefaultIsIdle | lib/heatrol/src/heatrol.cpp:67-73 | on a consistent heater, `isDefaultOrder()` holds exactly when the default is a real order and `toDefault` would leave the heater unchanged |
| Heatrol.Begin | lib/heatrol/src/heatrol.cpp:22-30 | pins, label and default are recorded; with an in-range default the heater is at it afterwards, otherwise order and levels are as before |
| Heatrol.BeginWithOrder | lib/heatrol/src/heatrol.cpp:32 | `begin` with the label "room": pins and default recorded; an in-range default is reached, an out-of-range one leaves order and levels as before; the callback runs exactly when registered |
| Heatrol.BeginNamed | lib/heatrol/src/heatrol.cpp:34 | the default order is HORS GEL, so with the given pins and label the heater starts at HORS GEL with levels (HIGH, LOW); the callback runs exactly when registered |
| Heatrol.BeginPlain | lib/heatrol/src/heatrol.cpp:36 | HORS GEL and "room" as documented in lib/heatrol/src/heatrol.h:42-46, with the given pins; the callback runs exactly when registered |
| Heatrol.OrderLabel | lib/heatrol/src/heatrol.cpp:79-86 | the label is non-empty exactly for the four orders and is the table entry there; anything else gets "" (bound by element count) |
| Heatrol.LabelsIdentifyOrders | lib/heatrol/src/heatrol.cpp:80 | distinct orders have distinct labels |
| Heatrol.OrderLabelAsWritten | lib/heatrol/src/heatrol.cpp:79-86 | the lookup as written finds a label exactly for the four orders, reads past the four labels exactly for values in [4, 4 * sizeof(String)), and returns "" exactly outside [0, 4 * sizeof(String)); in range it agrees with the corrected lookup |
| Heatrol.LabelGuardAdmitsPastEnd | lib/heatrol/src/heatrol.cpp:81 | the value 4 passes the `sizeof(Labels)` guard and indexes past the table |
| Heatrol.CurrentLabelIsSafe | lib/heatrol/src/heatrol.cpp:64 | the current order's label never reaches the faulty bound on a consistent heater; only the default order's label can |
| Heatrol.GetOrderLabel | lib/heatrol/src/heatrol.cpp:64 | the current order's label is non-empty exactly for a real order, and is its entry in the label table |
| Heatrol.GetDefaultOrderLabel | lib/heatrol/src/heatrol.cpp:58 | corrected getter: the default order's label is non-empty exactly for a real order, and is its entry in the label table |
| Heatrol.GetDefaultOrderLabelAsWritten | lib/heatrol/src/heatrol.cpp:58 | the getter as written finds the table label exactly for a real default, and reads past the labels exactly for a default in [4, 4 * sizeof(String)) |
| Heatrol.DefaultLabelReadsPastEnd | lib/heatrol/src/heatrol.cpp:40 | after `setDefaultOrder(4)` the getter as written reads past the labels, where the corrected one returns "" |
| Heatrol.OnChange | lib/heatrol/src/heatrol.cpp:75-77 | the single slot takes the given callback, or becomes empty for a null one; the heaters are untouched |
| Heatrol.CallbackSlotIsShared | lib/heatrol/src/heatrol.h:32 | registering through any heater has the same effect, every other heater's `setOrder` then calls that callback, and after a null registration none does |
| Heatrol.FleetStepPreservesConsistency | lib/heatrol/src/heatrol.cpp:44-69 | `setOrder` and `toDefault` on one heater keep every heater consistent and every default in range |
| ConfigStore.FieldsDetermineConfig | lib/config/src/config.h:26-45 | a configuration is exactly its path plus the three MQTT and five network fields |
| ConfigStore.SetNetworkSsid | lib/config/src/config.cpp:57-59 | the SSID takes the value; every other setting and the path are unchanged |
| ConfigStore.SetNetworkPassword | lib/config/src/config.cpp:60-62 | the password takes the value; nothing else changes |
| ConfigStore.SetNetworkChannel | lib/config/src/config.cpp:63-65 | the Wi-Fi channel takes the value; nothing else changes |
| ConfigStore.SetNetworkModeAp | lib/config/src/config.cpp:66-68 | the access-point flag takes the value; nothing else changes |
| ConfigStore.SetNetworkHidden | lib/config/src/config.cpp:69-71 | the hidden flag takes the value; nothing else changes |
| ConfigStore.SetMqttNetwork | lib/config/src/config.cpp:73-75 | the MQTT host takes the value; nothing else changes |
| ConfigStore.SetMqttChannel | lib/config/src/config.cpp:76-78 | the MQTT topic takes the value; nothing else changes |
| ConfigStore.SetMqttPort | lib/config/src/config.cpp:79-81 | the MQTT port takes the value; nothing else changes |
| ConfigStore.SetDefault | lib/config/src/config.cpp:83-95 | every one of the eight settings equals its `DEFAULT_*` constant (lib/config/src/config.h:17-24); the path is kept |
| ConfigStore.SetDefaultIdempotent | lib/config/src/config.h:67-68 | `setDefault` is idempotent, and it yields the only configuration at defaults for its path |
| ConfigStore.GetMqttParams | lib/config/src/config.cpp:48-50 | the returned group holds the configuration's MQTT host, topic and port |
| ConfigStore.GetNetworkParams | lib/config/src/config.cpp:52-54 | the group read through the pointer holds the configuration's SSID, password, channel, access-point and hidden flags |
| ConfigStore.WriteThroughNetworkParams | lib/config/src/config.cpp:52-54 | a write through the returned pointer replaces the configuration's own network group, leaving MQTT and path |
| ConfigStore.FromDocument | lib/config/src/config.cpp:28-37 | the constructor's literal-key assignments give every setting by the per-key rule, and keep the path |
| ConfigStore.FromDocumentReadsEachField | lib/config/src/config.cpp:28-37 | each setting is read by the per-key rule: text and number keys only with a value of their kind, boolean keys whenever present, otherwise that setting's own default |
| ConfigStore.LoadIgnoresUnknownKeys | lib/config/src/config.cpp:28-37 | keys other than the eight play no part in loading |
| ConfigStore.ToDocument | lib/config/src/config.cpp:109-117 | the saved document holds each setting under its key, and no other key |
| ConfigStore.ReadEncodedField | lib/config/src/config.cpp:28-37 | reading a setting back from the saved document yields the setting |
| ConfigStore.Load | lib/config/src/config.cpp:10-42 | no file: all defaults; file unopenable or unparsable: early return with nothing assigned (not the defaults); otherwise the per-key rule; the path is recorded |
| ConfigStore.Save | lib/config/src/config.cpp:97-124 | the old file is removed first; it is absent afterwards exactly when creation fails; a failed write leaves an empty, unparsable file; a successful one holds exactly the eight-key document of the configuration, from which every setting reads back; other files are untouched |
| ConfigStore.SaveLoadRoundTrip | lib/config/src/config.cpp:97-124 | loading after a successful save reproduces the configuration exactly |
| ConfigStore.FailedSaveLosesSettings | lib/config/src/config.cpp:99-105 | after a failed creation the next load gives the defaults; after a failed write, unassigned settings |
| ConfigStore.SsidOnlyDocument | lib/config/src/config.cpp:28-37 | a document with only `network-ssid` gives that SSID and the defaults for the other seven settings |
| Firmware.SetUpNetwork | src/main.cpp:57-92 | access point when `ap_mode` is set, station when not and it connects, otherwise defaults in memory and the default access point |
| Firmware.SetUpNetworkAP | src/main.cpp:39-55 | as written: the soft access point gets the group's SSID and password, channel 1 or 0 from the hidden flag, and a visible SSID; the configured channel plays no part |
| Firmware.SetUpNetworkAPIntended | src/main.cpp:39-55 | corrected: the soft access point gets the configured channel and hidden flag in their own parameters |
| Firmware.HiddenFlagTakesChannelSlot | src/main.cpp:49-52 | as written no configuration hides the access point, the configured channel has no effect, and a hidden configuration differs from the intended access point |
| Firmware.SetUpNetworkSTA | src/main.cpp:57-83 | station role exactly when the join succeeds, with the configured credentials and the configuration unchanged; otherwise defaults in memory, same path, and the default access point |
| Firmware.StationFallbackIsNotPersisted | src/main.cpp:75-82 | a reload whose station join fails opens the default access point on defaults in memory, while the flash and what the next start-up loads stay as they were |
| Firmware.ZoneOfRoute | src/main.cpp:283-288 | `/api/heaters/k` is registered for k in 1..3 and addresses zone k-1 |
| Firmware.HeaterUpdate | src/main.cpp:230-256 | 404 outside [0,3) and 400 for a mode outside [0,4), both with no change; no mode gives 200 with no change; a valid mode sets only that zone; for a valid mode the callback runs exactly when one is registered, and never otherwise |
| Firmware.HeaterDefault | src/main.cpp:213-228 | 200 and `toDefault` on the zone (callback exactly when registered) exactly when 0 < zone < 3, else 404 with no change and no callback |
| Firmware.HeaterDefaultIntended | src/main.cpp:213-228 | with the bound `zone >= 0`, every zone can be sent to its default; other zones are untouched; 404 runs no callback |
| Firmware.HeaterData | src/main.cpp:190-211 | 200 with the zone's name, order, default and labels exactly when 0 < zone < 3, else 404 |
| Firmware.HeaterDataIntended | src/main.cpp:190-211 | with the bound `zone >= 0`, every zone can be read |
| Firmware.HeatersData | src/main.cpp:153-174 | the loop builds one view per heater, in zone order, zone 0 included, and yields exactly the views of the whole array |
| Firmware.HeatersListResponse | src/main.cpp:153-174 | 200 with one view per heater, in zone order |
| Firmware.ConfigShowResponse | src/main.cpp:101-113 | 200 with the SSID, the access-point flag as "mode_app" and the channel |
| Firmware.ConfigShowHidesSecrets | src/main.cpp:105-109 | the password, the hidden flag and the MQTT settings have no influence on the response |
| Firmware.UpdateNetwork | src/main.cpp:116-145 | with any argument the setters run, then `save`, then 201 whatever the save did; with none, 200 and nothing changes; `hidden` decides the access-point flag and the hidden flag never changes |
| Firmware.HiddenArgumentOverwritesApMode | src/main.cpp:128-135 | `mode_ap=1&hidden=0` leaves access-point mode off, in memory and in the stored file |
| Firmware.UpdateNetworkIntended | src/main.cpp:116-145 | with `hidden` routed to `setNetworkHidden`, each argument sets its own field |
| Firmware.Setup | src/main.cpp:260-273 | start-up loads `/config2.json` and brings up the network from it; with no file the device runs the default access point on default settings; the three heaters are at HORS GEL with labels "room #1".."room #3", no callback is registered and the device is valid |
| Firmware.Dispatch | src/main.cpp:277-292 | each request reaches the handler its route names: reload `setUpNetwork`, PATCH the network update, GET config the config view, GET `/api/heaters/1..3` the zone's data, any other GET `/api/heaters/<k>` the heaters list, POST the update or default of zone k-1; POSTs outside 1..3 and unknown paths get `handleNotFound`'s 404 with no change and no callback; only PATCH writes flash, only reload changes the Wi-Fi role; no route registers a callback; statuses are 200, 201, 400 or 404 |
| Firmware.DispatchPreservesValid | src/main.cpp:277-292 | every routed request keeps three consistent heaters with in-range defaults and the configuration's path |
| Firmware.HeaterRequestsDoNotPersist | src/main.cpp:190-256 | heater requests change neither configuration, flash nor Wi-Fi role |
| Firmware.ViewsUseSourceLabels | lib/heatrol/src/heatrol.cpp:58-64 | on every reachable device the source's label lookup finds a label for every heater's order and default, equal to the one in the views, so the faulty bound is never reached through the REST API |
| Firmware.Run | src/main.cpp:277-292 | any sequence of requests keeps the device valid |
| Firmware.LinesAlwaysMatchOrder | src/main.cpp:260-294 | from start-up on, after any requests, each heater's lines carry exactly the levels of its order |
| Firmware.FirstZoneUnreachable | src/main.cpp:197 | `/api/heaters/1` answers 404 to GET and to POST default, although POST with a mode reaches it |
| Firmware.IntendedRoutesReachEveryZone | src/main.cpp:220 | with the intended bound, every route 1..3 reads and defaults its own zone |

## Left out

- Wi-Fi association, the soft-AP addresses, the 15-try connection loop and `delay` are radio I/O. Whether the station connects is a parameter.
- `pinMode`/`digitalWrite` are hardware writes. Only the recorded `states` are modelled.
- AsyncWebServer mechanics are left out: the CORS headers, the OPTIONS routes (`handleHeatersOptions`) and response streaming. Responses keep the status and a structured body. The byte-level JSON of the body is not modelled.
- The server's path matching is modelled only for `/api/heaters/<k>`. A registered path also accepts any longer path that continues it with "/", in order of registration. So other extended paths, such as a GET of `/api/config/<x>` (answered by the config view), are not distinguished requests. `Unrouted` stands for a path no route matches even as a prefix.
- Heatrol.GetDefaultOrderLabel: it is the corrected getter, which returns "" for a default outside [0, 4). The source's getter goes through the faulty bound; `Heatrol.GetDefaultOrderLabelAsWritten` models it, and `Firmware.ViewsUseSourceLabels` shows the two agree on every reachable device.
- Whether the radio accepts the channel `softAP` is given (0 for a visible configuration) is library and radio behaviour. `Firmware.SetUpNetworkAP` records only the arguments passed.
- LittleFS and ArduinoJson internals are left out. Flash is a map from path to stored file, and a parsed file is a key/value map.
- SaveLoadRoundTrip: it assumes the eight values fit ArduinoJson's 512-byte document. Very long strings would be dropped from the saved document.
- ConfigStore.AsFlag: how ArduinoJson coerces a string, float or nested value found under a boolean key is library-specific, and so is its handling of integers too large for its own integer type. The model reads integers as true when non-zero, whatever their size, and every other non-boolean value as false.
- `String::toInt` parsing of request arguments is left out. Arguments arrive as integers, and `Truth` is the integer-to-`bool` conversion.
- Order values are plain integers. The C++ cast of an out-of-range integer to `hzOrder_t` is not modelled beyond that.
- The callback's body is code outside this model. Only whether it runs is modelled.
- Serial logging is left out. The MQTT settings are kept, but MQTT itself is never used by the firmware. The enums `hzPeriod_t` and `hzPin_t` are unused.
- The `Config` destructor (`LittleFS.end`) is left out. So is the fact that `save` skips `file.close()` after a failed write.
- Strings are sequences of characters. The 64-byte path bound counts characters as bytes.

## Findings

| source | as written | input that shows it | evidently intended | confidence | as-written member | corrected member |
|---|---|---|---|---|---|---|
| lib/heatrol/src/heatrol.cpp:81 | `order < sizeof(Labels)` bounds the label index by the byte size of four `String` objects | a default order of 4 (via `setDefaultOrder`), then `getDefaultOrderLabel()`: the guard passes and `Labels[4]` is read | `order < ORDER_NB`, giving "" | high; not executed | Heatrol.OrderLabelAsWritten, Heatrol.LabelGuardAdmitsPastEnd, Heatrol.GetDefaultOrderLabelAsWritten, Heatrol.DefaultLabelReadsPastEnd | Heatrol.OrderLabel, Heatrol.GetDefaultOrderLabel |
| src/main.cpp:197 | `zone > 0` in `handleHeaterData`, and likewise at src/main.cpp:220 in `handleHeaterDefault` | `GET /api/heaters/1` and `POST /api/heaters/1/default` (zone 0) answer 404, while `POST /api/heaters/1` with a mode works | `zone >= 0`, as in `handleHeaterUpdate` | high; not executed | Firmware.HeaterData, Firmware.HeaterDefault, Firmware.FirstZoneUnreachable | Firmware.HeaterDataIntended, Firmware.HeaterDefaultIntended, Firmware.IntendedRoutesReachEveryZone |
| src/main.cpp:133 | the `hidden` argument is passed to `setNetworkModeAp` | `PATCH /api/config/network` with `mode_ap=1&hidden=0`: access-point mode ends up off and the hidden flag is unchanged | `setNetworkHidden` | high; not executed | Firmware.UpdateNetwork, Firmware.HiddenArgumentOverwritesApMode | Firmware.UpdateNetworkIntended |
| src/main.cpp:49-52 | `WiFi.softAP(ssid, password, hidden)`: `softAP` of the ESP8266 Wi-Fi library takes the channel third and the hidden-SSID flag fourth | a configuration with `network-hidden` true and `network-channel` 6: the access point is visible, on channel 1 | `softAP(ssid, password, channel, hidden)` | medium (the parameter order is the library's, which is not part of this model); not executed | Firmware.SetUpNetworkAP, Firmware.HiddenFlagTakesChannelSlot | Firmware.SetUpNetworkAPIntended |

The heater views use the corrected label lookup. On every reachable device the two lookups agree (`Firmware.ViewsUseSourceLabels`): start-up gives every heater HORS GEL as default and no route changes a default. The request dispatcher (`Firmware.Dispatch`) and start-up keep the two handler defects and the soft-AP arguments as written, because the device model describes the firmware as it behaves. The corrected handlers and `Firmware.SetUpNetworkAPIntended` stand beside the as-written ones, and their properties are proved.

=== FILE: common.dfy ===
/** Small shared definitions used by every other module. */
module Common {

  /** A value that may be absent: a missing request argument, a file that
      does not parse. */
  datatype Option<+T> = None | Some(value: T)

  /** The C++ `uint8_t` used for pin numbers. */
  newtype uint8 = x: int | 0 <= x < 0x100

  /** The range of the target's C++ `int` (32 bits). */
  predicate IsInt32(x: int) {
    -0x8000_0000 <= x < 0x8000_0000
  }

  /** The C++ `int` of the target. */
  newtype int32 = x: int | IsInt32(x)
}

=== FILE: config.dfy ===
/** The persistent configuration (`Config`).

    Eight settings in two groups (MQTT and Wi-Fi), compiled-in defaults, one
    setter per field, and load/save against a flat JSON object stored in the
    flash file system. The file system is a map from path to stored file; a
    stored file either cannot be opened or has contents, which either parse
    as JSON or do not. */
module ConfigStore {
  import opened Common

  const DEFAULT_MQTT_CHANNEL: string := "/moheato/logs"
  const DEFAULT_MQTT_NETWORK: string := "0.0.0.0"
  const DEFAULT_MQTT_PORT: int32 := 1183
  const DEFAULT_NETWORK_SSID: string := "moheato-network"
  const DEFAULT_NETWORK_PWD: string := "RSbbmZe4yeBe4w"
  const DEFAULT_NETWORK_CHANNEL: int32 := 1
  /** Access-point mode is on by default. */
  const DEFAULT_NETWORK_AP_MODE: bool := true
  const DEFAULT_NETWORK_HIDDEN: bool := false

  /** Size of the `path` buffer, terminating NUL included. */
  const PATH_CAPACITY: int := 64

  /** `t_mqtt_config`. */
  datatype MqttConfig = MqttConfig(network: string, channel: string, port: int32)

  /** `t_network_config`. */
  datatype NetworkConfig = NetworkConfig(
    ssid: string,
    password: string,
    channel: int32,
    apMode: bool,
    hidden: bool)

  /** A path that fits the `path` buffer with its terminator. */
  type Path = s: string | |s| < PATH_CAPACITY

  /** The fields of one `Config` object. */
  datatype Config = Config(path: Path, mqtt: MqttConfig, network: NetworkConfig)

  /** The eight settings, one per key of the stored document. */
  datatype Field =
    | MqttChannel | MqttNetwork | MqttPort
    | NetworkSsid | NetworkPwd | NetworkChannel | NetworkApMode | NetworkHidden

  /** The document key under which each setting is stored. */
  function Key(f: Field): string {
    match f
    case MqttChannel => "mqtt-channel"
    case MqttNetwork => "mqtt-network"
    case MqttPort => "mqtt-port"
    case NetworkSsid => "network-ssid"
    case NetworkPwd => "network-pwd"
    case NetworkChannel => "network-channel"
    case NetworkApMode => "network-ap-mode"
    case NetworkHidden => "network-hidden"
  }

  /** The value of one setting. */
  datatype Value = Text(s: string) | Number(n: int32) | Flag(b: bool)

  /** Reads one setting of a configuration. */
  function Get(c: Config, f: Field): Value {
    match f
    case MqttChannel => Text(c.mqtt.channel)
    case MqttNetwork => Text(c.mqtt.network)
    case MqttPort => Number(c.mqtt.port)
    case NetworkSsid => Text(c.network.ssid)
    case NetworkPwd => Text(c.network.password)
    case NetworkChannel => Number(c.network.channel)
    case NetworkApMode => Flag(c.network.apMode)
    case NetworkHidden => Flag(c.network.hidden)
  }

  /** The compiled-in default of each setting (`DEFAULT_*`). */
  function DefaultValue(f: Field): Value {
    match f
    case MqttChannel => Text(DEFAULT_MQTT_CHANNEL)
    case MqttNetwork => Text(DEFAULT_MQTT_NETWORK)
    case MqttPort => Number(DEFAULT_MQTT_PORT)
    case NetworkSsid => Text(DEFAULT_NETWORK_SSID)
    case NetworkPwd => Text(DEFAULT_NETWORK_PWD)
    case NetworkChannel => Number(DEFAULT_NETWORK_CHANNEL)
    case NetworkApMode => Flag(DEFAULT_NETWORK_AP_MODE)
    case NetworkHidden => Flag(DEFAULT_NETWORK_HIDDEN)
  }

  /** Every setting holds its default. */
  predicate AtDefaults(c: Config) {
    forall f :: Get(c, f) == DefaultValue(f)
  }

  /** `r` differs from `c` in setting `f` at most. */
  predicate OnlyChanged(c: Config, r: Config, f: Field) {
    r.path == c.path && forall g :: g != f ==> Get(r, g) == Get(c, g)
  }

  /** A configuration is its path and its eight settings: nothing else. */
  lemma FieldsDetermineConfig(a: Config, b: Config)
    requires a.path == b.path
    requires forall f :: Get(a, f) == Get(b, f)
    ensures a == b
  {
    assert Get(a, MqttChannel) == Get(b, MqttChannel);
    assert Get(a, MqttNetwork) == Get(b, MqttNetwork);
    assert Get(a, MqttPort) == Get(b, MqttPort);
    assert Get(a, NetworkSsid) == Get(b, NetworkSsid);
    assert Get(a, NetworkPwd) == Get(b, NetworkPwd);
    assert Get(a, NetworkChannel) == Get(b, NetworkChannel);
    assert Get(a, NetworkApMode) == Get(b, NetworkApMode);
    assert Get(a, NetworkHidden) == Get(b, NetworkHidden);
  }

  // Setters: each changes its one field in memory; nothing is stored.

  function SetNetworkSsid(c: Config, ssid: string): (r: Config)
    ensures Get(r, NetworkSsid) == Text(ssid) && OnlyChanged(c, r, NetworkSsid)
  {
    c.(network := c.network.(ssid := ssid))
  }

  function SetNetworkPassword(c: Config, password: string): (r: Config)
    ensures Get(r, NetworkPwd) == Text(password) && OnlyChanged(c, r, NetworkPwd)
  {
    c.(network := c.network.(password := password))
  }

  function SetNetworkChannel(c: Config, channel: int32): (r: Config)
    ensures Get(r, NetworkChannel) == Number(channel) && OnlyChanged(c, r, NetworkChannel)
  {
    c.(network := c.network.(channel := channel))
  }

  function SetNetworkModeAp(c: Config, active: bool): (r: Config)
    ensures Get(r, NetworkApMode) == Flag(active) && OnlyChanged(c, r, NetworkApMode)
  {
    c.(network := c.network.(apMode := active))
  }

  function SetNetworkHidden(c: Config, active: bool): (r: Config)
    ensures Get(r, NetworkHidden) == Flag(active) && OnlyChanged(c, r, NetworkHidden)
  {
    c.(network := c.network.(hidden := active))
  }

  function SetMqttNetwork(c: Config, network: string): (r: Config)
    ensures Get(r, MqttNetwork) == Text(network) && OnlyChanged(c, r, MqttNetwork)
  {
    c.(mqtt := c.mqtt.(network := network))
  }

  function SetMqttChannel(c: Config, channel: string): (r: Config)
    ensures Get(r, MqttChannel) == Text(channel) && OnlyChanged(c, r, MqttChannel)
  {
    c.(mqtt := c.mqtt.(channel := channel))
  }

  function SetMqttPort(c: Config, port: int32): (r: Config)
    ensures Get(r, MqttPort) == Number(port) && OnlyChanged(c, r, MqttPort)
  {
    c.(mqtt := c.mqtt.(port := port))
  }

  /** `setDefault`: every setting back to its compiled-in default, in
      memory only; the path is kept. */
  function SetDefault(c: Config): (r: Config)
    ensures r.path == c.path && AtDefaults(r)
  {
    Config(
      c.path,
      MqttConfig(DEFAULT_MQTT_NETWORK, DEFAULT_MQTT_CHANNEL, DEFAULT_MQTT_PORT),
      NetworkConfig(
        DEFAULT_NETWORK_SSID, DEFAULT_NETWORK_PWD, DEFAULT_NETWORK_CHANNEL,
        DEFAULT_NETWORK_AP_MODE, DEFAULT_NETWORK_HIDDEN))
  }

  /** `setDefault` is idempotent, and the only configuration at defaults
      with a given path is the one it produces. */
  lemma SetDefaultIdempotent(c: Config, d: Config)
    ensures SetDefault(SetDefault(c)) == SetDefault(c)
    ensures AtDefaults(d) && d.path == c.path ==> d == SetDefault(c)
  {
    if AtDefaults(d) && d.path == c.path {
      FieldsDetermineConfig(d, SetDefault(c));
    }
  }

  /** `getMqttParams`: a copy of the MQTT group. */
  function GetMqttParams(c: Config): (m: MqttConfig)
    ensures Get(c, MqttNetwork) == Text(m.network)
    ensures Get(c, MqttChannel) == Text(m.channel)
    ensures Get(c, MqttPort) == Number(m.port)
  {
    c.mqtt
  }

  /** `getNetworkParams`: the network group, read through the returned
      pointer. */
  function GetNetworkParams(c: Config): (n: NetworkConfig)
    ensures Get(c, NetworkSsid) == Text(n.ssid)
    ensures Get(c, NetworkPwd) == Text(n.password)
    ensures Get(c, NetworkChannel) == Number(n.channel)
    ensures Get(c, NetworkApMode) == Flag(n.apMode)
    ensures Get(c, NetworkHidden) == Flag(n.hidden)
  {
    c.network
  }

  /** A write through the pointer `getNetworkParams` returns: it replaces
      the network group of the configuration itself, and only that. */
  function WriteThroughNetworkParams(c: Config, n: NetworkConfig): (r: Config)
    ensures GetNetworkParams(r) == n
    ensures GetMqttParams(r) == GetMqttParams(c) && r.path == c.path
  {
    c.(network := n)
  }

  // ---- The stored document ----

  /** A JSON value as the parser produces it. `JOther` stands for floats,
      arrays and nested objects, which no setting uses. */
  datatype JsonValue = JNull | JBool(b: bool) | JInt(i: int) | JString(s: string) | JOther

  /** A parsed flat JSON object. */
  type Document = map<string, JsonValue>

  /** How a value stored under a boolean key is read as a flag: booleans
      as themselves, integers by being non-zero, anything else as false. */
  function AsFlag(v: JsonValue): bool {
    match v
    case JBool(b) => b
    case JInt(i) => i != 0
    case _ => false
  }

  /** The per-key reading rule, by the kind of the setting's default: a
      text or number setting takes the document's value only when the key
      holds a value of that kind (a number must fit an `int`), and its
      default otherwise; a flag setting takes the document's value, read
      as a flag, whenever the key is present. */
  function ReadField(doc: Document, f: Field): Value {
    var k := Key(f);
    match DefaultValue(f)
    case Text(d) => Text(if k in doc && doc[k].JString? then doc[k].s else d)
    case Number(d) =>
      Number(if k in doc && doc[k].JInt? && IsInt32(doc[k].i) then doc[k].i as int32 else d)
    case Flag(d) => Flag(if k in doc then AsFlag(doc[k]) else d)
  }

  /** `variant | "default"` on a string setting. */
  function TextOr(doc: Document, key: string, default: string): string {
    if key in doc && doc[key].JString? then doc[key].s else default
  }

  /** `variant | default` on an `int` setting. */
  function NumberOr(doc: Document, key: string, default: int32): int32 {
    if key in doc && doc[key].JInt? && IsInt32(doc[key].i) then doc[key].i as int32 else default
  }

  /** `containsKey(key) ? variant : default` on a boolean setting. */
  function FlagOr(doc: Document, key: string, default: bool): bool {
    if key in doc then AsFlag(doc[key]) else default
  }

  /** The assignments of the constructor once the document has parsed. */
  function FromDocument(path: Path, doc: Document): (c: Config)
    ensures c.path == path
    ensures forall f :: Get(c, f) == ReadField(doc, f)
  {
    var c := Config(
      path,
      MqttConfig(
        TextOr(doc, "mqtt-network", DEFAULT_MQTT_NETWORK),
        TextOr(doc, "mqtt-channel", DEFAULT_MQTT_CHANNEL),
        NumberOr(doc, "mqtt-port", DEFAULT_MQTT_PORT)),
      NetworkConfig(
        TextOr(doc, "network-ssid", DEFAULT_NETWORK_SSID),
        TextOr(doc, "network-pwd", DEFAULT_NETWORK_PWD),
        NumberOr(doc, "network-channel", DEFAULT_NETWORK_CHANNEL),
        FlagOr(doc, "network-ap-mode", DEFAULT_NETWORK_AP_MODE),
        FlagOr(doc, "network-hidden", DEFAULT_NETWORK_HIDDEN)));
    assert Get(c, MqttChannel) == ReadField(doc, MqttChannel);
    assert Get(c, MqttNetwork) == ReadField(doc, MqttNetwork);
    assert Get(c, MqttPort) == ReadField(doc, MqttPort);
    assert Get(c, NetworkSsid) == ReadField(doc, NetworkSsid);
    assert Get(c, NetworkPwd) == ReadField(doc, NetworkPwd);
    assert Get(c, NetworkChannel) == ReadField(doc, NetworkChannel);
    assert Get(c, NetworkApMode) == ReadField(doc, NetworkApMode);
    assert Get(c, NetworkHidden) == ReadField(doc, NetworkHidden);
    c
  }

  /** Each setting the constructor assigns follows the per-key rule,
      independently of the other keys. */
  lemma FromDocumentReadsEachField(path: Path, doc: Document, f: Field)
    ensures Get(FromDocument(path, doc), f) == ReadField(doc, f)
  {
  }

  /** Keys other than the eight settings' keys play no part in loading. */
  lemma LoadIgnoresUnknownKeys(path: Path, d1: Document, d2: Document)
    requires forall f :: (Key(f) in d1 <==> Key(f) in d2)
    requires forall f :: Key(f) in d1 ==> d1[Key(f)] == d2[Key(f)]
    ensures FromDocument(path, d1) == FromDocument(path, d2)
  {
    forall f
      ensures Get(FromDocument(path, d1), f) == Get(FromDocument(path, d2), f)
    {
      FromDocumentReadsEachField(path, d1, f);
      FromDocumentReadsEachField(path, d2, f);
    }
    FieldsDetermineConfig(FromDocument(path, d1), FromDocument(path, d2));
  }

  /** The document value a setting is written as. */
  function Encode(v: Value): JsonValue {
    match v
    case Text(s) => JString(s)
    case Number(n) => JInt(n as int)
    case Flag(b) => JBool(b)
  }

  /** The document `save` builds. */
  function ToDocument(c: Config): (doc: Document)
    ensures forall f :: Key(f) in doc && doc[Key(f)] == Encode(Get(c, f))
    ensures forall k :: k in doc ==> exists f :: Key(f) == k
  {
    var doc := map[
      "mqtt-channel" := JString(c.mqtt.channel),
      "mqtt-network" := JString(c.mqtt.network),
      "mqtt-port" := JInt(c.mqtt.port as int),
      "network-ssid" := JString(c.network.ssid),
      "network-pwd" := JString(c.network.password),
      "network-channel" := JInt(c.network.channel as int),
      "network-ap-mode" := JBool(c.network.apMode),
      "network-hidden" := JBool(c.network.hidden)];
    assert forall k :: k in doc ==> exists f :: Key(f) == k by {
      forall k | k in doc ensures exists f :: Key(f) == k {
        if k == "mqtt-channel" { assert Key(MqttChannel) == k; }
        else if k == "mqtt-network" { assert Key(MqttNetwork) == k; }
        else if k == "mqtt-port" { assert Key(MqttPort) == k; }
        else if k == "network-ssid" { assert Key(NetworkSsid) == k; }
        else if k == "network-pwd" { assert Key(NetworkPwd) == k; }
        else if k == "network-channel" { assert Key(NetworkChannel) == k; }
        else if k == "network-ap-mode" { assert Key(NetworkApMode) == k; }
        else { assert Key(NetworkHidden) == k; }
      }
    }
    doc
  }

  /** Reading back what was written gives the setting that was written. */
  lemma ReadEncodedField(c: Config, f: Field)
    ensures ReadField(ToDocument(c), f) == Get(c, f)
  {
  }

  // ---- The flash file system ----

  /** A file in flash: it either cannot be opened, or it has contents,
      which parse as JSON (`Some`) or not (`None`). Valid JSON that is not
      an object, such as `[]`, parses and has none of the keys: it is
      `Contents(Some(map[]))`. */
  datatype StoredFile = Unopenable | Contents(doc: Option<Document>)

  type Storage = map<string, StoredFile>

  /** What memory holds in the scalar fields of a freshly allocated
      `Config` before the constructor assigns them (the string fields start
      out empty). */
  datatype Residue = Residue(mqttPort: int32, networkChannel: int32, apMode: bool, hidden: bool)

  /** A configuration whose constructor returned before assigning any
      setting. */
  function Unassigned(path: Path, residue: Residue): Config {
    Config(
      path,
      MqttConfig("", "", residue.mqttPort),
      NetworkConfig("", "", residue.networkChannel, residue.apMode, residue.hidden))
  }

  /** The constructor. The path is copied into the 64-byte buffer, so it
      must be shorter than that. No file: every setting at its default. A
      file that cannot be opened or does not parse: the constructor returns
      early and assigns nothing. Otherwise: the per-key rule. */
  function Load(path: string, storage: Storage, residue: Residue): (c: Config)
    requires |path| < PATH_CAPACITY
    ensures c.path == path
    ensures path !in storage ==> AtDefaults(c)
    ensures path in storage && storage[path].Contents? && storage[path].doc.Some? ==>
      forall f :: Get(c, f) == ReadField(storage[path].doc.value, f)
    ensures path in storage && (storage[path].Unopenable? || storage[path].doc.None?) ==>
      c == Unassigned(path, residue) && !AtDefaults(c)
  {
    var c0 := Unassigned(path, residue);
    if path !in storage then
      SetDefault(c0)
    else
      match storage[path]
      case Unopenable =>
        assert Get(c0, NetworkSsid) != DefaultValue(NetworkSsid);
        c0
      case Contents(None) =>
        assert Get(c0, NetworkSsid) != DefaultValue(NetworkSsid);
        c0
      case Contents(Some(doc)) =>
        assert forall f :: Get(FromDocument(path, doc), f) == ReadField(doc, f) by {
          forall f ensures Get(FromDocument(path, doc), f) == ReadField(doc, f) {
            FromDocumentReadsEachField(path, doc, f);
          }
        }
        FromDocument(path, doc)
  }

  /** What `save` manages to do: the file could not be created, it was
      created but serialising wrote nothing, or the document was written. */
  datatype FlashOutcome = CreateFails | WriteFails | Written

  /** `save`: removes the file first, then recreates it and writes the
      eight settings. Other files are untouched. */
  function Save(c: Config, storage: Storage, outcome: FlashOutcome): (s: Storage)
    ensures forall p :: p != c.path ==> (p in s <==> p in storage)
    ensures forall p :: p != c.path && p in storage ==> p in s && s[p] == storage[p]
    ensures c.path !in s <==> outcome == CreateFails
    ensures outcome == WriteFails ==> s[c.path] == Contents(None)
    ensures outcome == Written ==> s[c.path] == Contents(Some(ToDocument(c)))
    ensures outcome == Written ==>
      (s[c.path].Contents? && s[c.path].doc.Some? &&
       forall f :: ReadField(s[c.path].doc.value, f) == Get(c, f))
  {
    var removed := storage - {c.path};
    match outcome
    case CreateFails => removed
    case WriteFails => removed[c.path := Contents(None)]
    case Written =>
      assert forall f :: ReadField(ToDocument(c), f) == Get(c, f) by {
        forall f ensures ReadField(ToDocument(c), f) == Get(c, f) {
          ReadEncodedField(c, f);
        }
      }
      removed[c.path := Contents(Some(ToDocument(c)))]
  }

  /** Loading after a successful save restores the saved configuration
      exactly, whatever was stored before. */
  lemma SaveLoadRoundTrip(c: Config, storage: Storage, residue: Residue)
    ensures Load(c.path, Save(c, storage, Written), residue) == c
  {
    var c' := Load(c.path, Save(c, storage, Written), residue);
    FieldsDetermineConfig(c', c);
  }

  /** A failed save has already removed the previous file: the next load
      yields the defaults if the file could not be created, and unassigned
      settings if it was created empty. Either way the saved settings are
      lost unless they were the defaults. */
  lemma FailedSaveLosesSettings(c: Config, storage: Storage, residue: Residue)
    ensures Load(c.path, Save(c, storage, CreateFails), residue) == SetDefault(c)
    ensures Load(c.path, Save(c, storage, WriteFails), residue) == Unassigned(c.path, residue)
  {
    SetDefaultIdempotent(c, Load(c.path, Save(c, storage, CreateFails), residue));
  }

  /** A document holding only an SSID yields that SSID and the defaults
      for the seven other settings. */
  lemma SsidOnlyDocument(path: Path, ssid: string, storage: Storage, residue: Residue)
    requires path in storage && storage[path] == Contents(Some(map["network-ssid" := JString(ssid)]))
    ensures Get(Load(path, storage, residue), NetworkSsid) == Text(ssid)
    ensures forall f :: f != NetworkSsid ==> Get(Load(path, storage, residue), f) == DefaultValue(f)
  {
    var doc := map["network-ssid" := JString(ssid)];
    forall f | f != NetworkSsid
      ensures Key(f) !in doc
    {
    }
  }
}

=== FILE: firmware.dfy ===
/** The firmware's start-up and REST handlers, reduced to their decisions.

    Three heaters (zones), one configuration, the flash storage and the
    Wi-Fi role form the device state. Each REST request becomes a pure
    function from that state to a status code, a response body and the new
    state. What the radio and the flash do is passed in as an environment:
    whether a station connection succeeds, and how far a save gets. */
module Firmware {
  import opened Common
  import opened Heatrol
  import opened ConfigStore

  /** Number of zones (`ZONE_NR`). */
  const ZONE_NR: int := 3

  /** Where the configuration is stored. */
  const CONFIG_PATH: string := "/config2.json"

  /** The output pins of each zone: the board's D1/D2, D5/D6 and D7/D8,
      written as GPIO numbers. */
  const ZonePins: seq<(uint8, uint8)> := [(5, 4), (14, 12), (13, 15)]

  /** The label each zone gets at start-up. */
  const ZoneNames: seq<string> := ["room #1", "room #2", "room #3"]

  // ---- Wi-Fi role ----

  /** The role the radio is put in, with the arguments it is given. For an
      access point these are the SSID, the password, the channel and the
      hidden-SSID flag, in the order `WiFi.softAP` takes them. */
  datatype WifiRole =
    | AccessPoint(ssid: string, password: string, channel: int, hidden: bool)
    | Station(ssid: string, password: string)

  datatype NetworkSetup = NetworkSetup(config: Config, role: WifiRole)

  /** The C++ conversion of a `bool` argument to an `int` parameter. */
  function BoolToInt(b: bool): int {
    if b then 1 else 0
  }

  /** `setUpNetworkAP` as written: it passes SSID, password and the hidden
      flag to `softAP`, whose third parameter is the channel. The hidden
      flag thus becomes channel 0 or 1, the SSID parameter keeps its
      default (visible), and the configured channel is never used. */
  function SetUpNetworkAP(n: NetworkConfig): (r: WifiRole)
    ensures r.AccessPoint? && r.ssid == n.ssid && r.password == n.password
    ensures r.channel == (if n.hidden then 1 else 0) && !r.hidden
  {
    AccessPoint(n.ssid, n.password, BoolToInt(n.hidden), false)
  }

  /** `setUpNetworkAP` with the configured channel and hidden flag in their
      own parameters. */
  function SetUpNetworkAPIntended(n: NetworkConfig): (r: WifiRole)
    ensures r.AccessPoint? && r.ssid == n.ssid && r.password == n.password
    ensures r.channel == n.channel as int && r.hidden == n.hidden
  {
    AccessPoint(n.ssid, n.password, n.channel as int, n.hidden)
  }

  /** As written, no configuration yields a hidden access point, the
      configured channel has no effect, and a hidden configuration (or any
      channel other than 0) differs from the intended access point. */
  lemma HiddenFlagTakesChannelSlot(n: NetworkConfig, channel: int32)
    ensures !SetUpNetworkAP(n).hidden
    ensures SetUpNetworkAP(n.(channel := channel)) == SetUpNetworkAP(n)
    ensures n.hidden || n.channel != 0 ==> SetUpNetworkAP(n) != SetUpNetworkAPIntended(n)
  {
  }

  /** The access point opened on the default settings. */
  const DefaultAccessPoint: WifiRole :=
    AccessPoint(DEFAULT_NETWORK_SSID, DEFAULT_NETWORK_PWD, BoolToInt(DEFAULT_NETWORK_HIDDEN), false)

  /** `setUpNetworkSTA`: join the configured network; if that fails within
      the retry window, reset the configuration to its defaults in memory
      (nothing is saved) and open the default access point instead. */
  function SetUpNetworkSTA(c: Config, connects: bool): (r: NetworkSetup)
    ensures r.role.Station? <==> connects
    ensures connects ==> r.config == c && r.role == Station(c.network.ssid, c.network.password)
    ensures !connects ==>
      r.config.path == c.path && AtDefaults(r.config) &&
      r.role == DefaultAccessPoint
  {
    if connects then
      NetworkSetup(c, Station(c.network.ssid, c.network.password))
    else
      var d := SetDefault(c);
      NetworkSetup(d, SetUpNetworkAP(GetNetworkParams(d)))
  }

  /** `setUpNetwork`: access point when `ap_mode` is set, station
      otherwise. */
  function SetUpNetwork(c: Config, staConnects: bool): (r: NetworkSetup)
    ensures r.role.AccessPoint? <==> c.network.apMode || !staConnects
    ensures c.network.apMode ==>
      r.config == c &&
      r.role == AccessPoint(c.network.ssid, c.network.password, BoolToInt(c.network.hidden), false)
    ensures !c.network.apMode && staConnects ==>
      r.config == c && r.role == Station(c.network.ssid, c.network.password)
    ensures !c.network.apMode && !staConnects ==>
      r.config.path == c.path && AtDefaults(r.config) &&
      r.role == DefaultAccessPoint
  {
    var n := GetNetworkParams(c);
    if n.apMode then NetworkSetup(c, SetUpNetworkAP(n)) else SetUpNetworkSTA(c, staConnects)
  }

  // ---- Requests and responses ----

  /** The arguments of a network update, already converted with `toInt`
      where the handler does so. */
  datatype NetworkArgs = NetworkArgs(
    ssid: Option<string>,
    password: Option<string>,
    modeAp: Option<int>,
    hidden: Option<int>)

  /** The requests the model distinguishes. `route` is the number in
      `/api/heaters/<route>`, for any integer; `Unrouted` is a request that
      no registered route matches, not even as a path prefix. */
  datatype Request =
    | HealthCheck
    | ConfigReload
    | ConfigPatchNetwork(args: NetworkArgs)
    | ConfigShow
    | HeatersList
    | HeaterGet(route: int)
    | HeaterPost(route: int, mode: Option<int>)
    | HeaterPostDefault(route: int)
    | Unrouted

  /** The JSON object describing one heater. */
  datatype HeaterView = HeaterView(
    name: string,
    modeId: int,
    mode: string,
    defaultModeId: int,
    defaultMode: string)

  /** The JSON object `GET /api/config` returns under "network". */
  datatype ConfigView = ConfigView(ssid: string, modeApp: bool, channel: int32)

  datatype Body =
    | NoBody
    | Message(text: string)
    | HeaterBody(heater: HeaterView)
    | HeatersBody(heaters: seq<HeaterView>)
    | ConfigBody(config: ConfigView)

  datatype Response = Response(status: int, body: Body)

  /** `handleNotFound`: the answer to any request no route matches. */
  const NotFound: Response := Response(404, Message("Resquest Not Found"))

  /** The heater handlers' own 404: a response stream with no content. */
  const ZoneNotFound: Response := Response(404, NoBody)

  /** The zone a route number addresses: `/api/heaters/k` is zone `k - 1`;
      other numbers match no route. */
  function ZoneOfRoute(k: int): (z: Option<int>)
    ensures z.Some? <==> 1 <= k <= ZONE_NR
    ensures z.Some? ==> 0 <= z.value < ZONE_NR && z.value + 1 == k
  {
    if 1 <= k <= ZONE_NR then Some(k - 1) else None
  }

  function ViewOf(h: Heater): HeaterView {
    HeaterView(h.name, h.order, GetOrderLabel(h), h.defaultOrder, GetDefaultOrderLabel(h))
  }

  // ---- Heater handlers ----

  /** A heater handler's outcome: response, heaters, and whether the
      change callback ran. */
  datatype HeaterReply = HeaterReply(response: Response, fleet: Fleet, notified: bool)

  /** `handleHeaterUpdate`: 404 outside [0, ZONE_NR); with no mode
      argument 200 and nothing changes; a mode outside [0, 4) gives 400
      and nothing changes; otherwise the zone's heater takes the order and
      the answer is 200. */
  function HeaterUpdate(f: Fleet, zone: int, mode: Option<int>): (r: HeaterReply)
    requires |f.heaters| == ZONE_NR
    ensures |r.fleet.heaters| == ZONE_NR && r.fleet.slot == f.slot
    ensures !(0 <= zone < ZONE_NR) ==> r.response == ZoneNotFound && r.fleet == f
    ensures 0 <= zone < ZONE_NR && mode.None? ==> r.response.status == 200 && r.fleet == f
    ensures 0 <= zone < ZONE_NR && mode.Some? && !InRange(mode.value) ==>
      r.response.status == 400 && r.fleet == f
    ensures 0 <= zone < ZONE_NR && mode.Some? && InRange(mode.value) ==>
      r.response.status == 200 && r.fleet.heaters[zone].order == mode.value &&
      Consistent(r.fleet.heaters[zone]) && SameSetup(r.fleet.heaters[zone], f.heaters[zone])
    ensures forall k :: 0 <= k < ZONE_NR && k != zone ==> r.fleet.heaters[k] == f.heaters[k]
    ensures r.notified ==> mode.Some? && InRange(mode.value)
    ensures 0 <= zone < ZONE_NR && mode.Some? && InRange(mode.value) ==>
      (r.notified <==> f.slot.Registered?)
  {
    if 0 <= zone < ZONE_NR then
      match mode
      case None => HeaterReply(Response(200, NoBody), f, false)
      case Some(m) =>
        if m < 0 || m >= 4 then
          HeaterReply(Response(400, Message("Mode is out of range.")), f, false)
        else
          var s := FleetSetOrder(f, zone, m);
          HeaterReply(Response(200, NoBody), s.fleet, s.notified)
    else
      HeaterReply(ZoneNotFound, f, false)
  }

  /** `handleHeaterDefault` as written: the guard is `zone > 0`, so zone 0
      is refused. */
  function HeaterDefault(f: Fleet, zone: int): (r: HeaterReply)
    requires |f.heaters| == ZONE_NR
    ensures |r.fleet.heaters| == ZONE_NR && r.fleet.slot == f.slot
    ensures r.response.status == 200 <==> 0 < zone < ZONE_NR
    ensures r.response.status != 200 ==> r.response == ZoneNotFound && r.fleet == f && !r.notified
    ensures 0 < zone < ZONE_NR ==>
      r.fleet.heaters[zone] == ToDefault(f.heaters[zone], f.slot).heater &&
      r.notified == f.slot.Registered?
    ensures forall k :: 0 <= k < ZONE_NR && k != zone ==> r.fleet.heaters[k] == f.heaters[k]
  {
    if zone > 0 && zone < ZONE_NR then
      var s := FleetToDefault(f, zone);
      HeaterReply(Response(200, NoBody), s.fleet, s.notified)
    else
      HeaterReply(ZoneNotFound, f, false)
  }

  /** `handleHeaterDefault` with the bound every zone needs, `zone >= 0`. */
  function HeaterDefaultIntended(f: Fleet, zone: int): (r: HeaterReply)
    requires |f.heaters| == ZONE_NR
    ensures |r.fleet.heaters| == ZONE_NR && r.fleet.slot == f.slot
    ensures r.response.status == 200 <==> 0 <= zone < ZONE_NR
    ensures 0 <= zone < ZONE_NR ==>
      r.fleet.heaters[zone] == ToDefault(f.heaters[zone], f.slot).heater &&
      r.notified == f.slot.Registered?
    ensures r.response.status != 200 ==> r.response == ZoneNotFound && r.fleet == f && !r.notified
    ensures forall k :: 0 <= k < ZONE_NR && k != zone ==> r.fleet.heaters[k] == f.heaters[k]
  {
    if 0 <= zone < ZONE_NR then
      var s := FleetToDefault(f, zone);
      HeaterReply(Response(200, NoBody), s.fleet, s.notified)
    else
      HeaterReply(ZoneNotFound, f, false)
  }

  /** `handleHeaterData` as written: the guard is `zone > 0`. */
  function HeaterData(f: Fleet, zone: int): (r: Response)
    requires |f.heaters| == ZONE_NR
    ensures r.status == 200 <==> 0 < zone < ZONE_NR
    ensures r.status == 200 ==> r.body == HeaterBody(ViewOf(f.heaters[zone]))
    ensures r.status != 200 ==> r == ZoneNotFound
  {
    if zone > 0 && zone < ZONE_NR then Response(200, HeaterBody(ViewOf(f.heaters[zone])))
    else ZoneNotFound
  }

  /** `handleHeaterData` with the bound every zone needs, `zone >= 0`. */
  function HeaterDataIntended(f: Fleet, zone: int): (r: Response)
    requires |f.heaters| == ZONE_NR
    ensures r.status == 200 <==> 0 <= zone < ZONE_NR
    ensures r.status == 200 ==> r.body == HeaterBody(ViewOf(f.heaters[zone]))
    ensures r.status != 200 ==> r == ZoneNotFound
  {
    if 0 <= zone < ZONE_NR then Response(200, HeaterBody(ViewOf(f.heaters[zone])))
    else ZoneNotFound
  }

  /** The views of all heaters, in zone order. */
  function ViewsOf(hs: seq<Heater>): seq<HeaterView> {
    seq(|hs|, k requires 0 <= k < |hs| => ViewOf(hs[k]))
  }

  /** `handleHeatersData`: the loop over the zones building one view per
      heater, zone 0 included. */
  method HeatersData(hs: seq<Heater>) returns (views: seq<HeaterView>)
    ensures views == ViewsOf(hs)
  {
    views := [];
    var z := 0;
    while z < |hs|
      invariant 0 <= z <= |hs|
      invariant |views| == z
      invariant forall k :: 0 <= k < z ==> views[k] == ViewOf(hs[k])
    {
      views := views + [ViewOf(hs[z])];
      z := z + 1;
    }
  }

  // ---- Configuration handlers ----

  /** `handleConfigShow`: the SSID, the access-point flag (as "mode_app")
      and the channel. */
  function ConfigShowResponse(c: Config): (r: Response)
    ensures r.status == 200 && r.body.ConfigBody?
    ensures r.body.config.ssid == c.network.ssid
    ensures r.body.config.modeApp == c.network.apMode
    ensures r.body.config.channel == c.network.channel
  {
    var n := GetNetworkParams(c);
    Response(200, ConfigBody(ConfigView(n.ssid, n.apMode, n.channel)))
  }

  /** The password, the hidden flag and the MQTT settings never show in
      the response: configurations that differ only there look the same. */
  lemma ConfigShowHidesSecrets(c: Config, password: string, hidden: bool, m: MqttConfig)
    ensures ConfigShowResponse(SetNetworkPassword(c, password)) == ConfigShowResponse(c)
    ensures ConfigShowResponse(SetNetworkHidden(c, hidden)) == ConfigShowResponse(c)
    ensures ConfigShowResponse(c.(mqtt := m)) == ConfigShowResponse(c)
  {
  }

  /** A configuration handler's outcome. */
  datatype ConfigReply = ConfigReply(response: Response, config: Config, storage: Storage)

  predicate AnyNetworkArg(a: NetworkArgs) {
    a.ssid.Some? || a.password.Some? || a.modeAp.Some? || a.hidden.Some?
  }

  /** `setNetworkModeAp(arg.toInt())`: the integer converted to `bool`. */
  function Truth(i: int): bool {
    i != 0
  }

  /** The setters `handleConfigUpdateNetwork` runs, in its order. The
      `hidden` argument goes to `setNetworkModeAp`. */
  function ApplyNetworkArgs(c: Config, a: NetworkArgs): Config {
    var c1 := if a.ssid.Some? then SetNetworkSsid(c, a.ssid.value) else c;
    var c2 := if a.password.Some? then SetNetworkPassword(c1, a.password.value) else c1;
    var c3 := if a.modeAp.Some? then SetNetworkModeAp(c2, Truth(a.modeAp.value)) else c2;
    if a.hidden.Some? then SetNetworkModeAp(c3, Truth(a.hidden.value)) else c3
  }

  /** `handleConfigUpdateNetwork` as written: when any argument is present
      the setters run, the configuration is saved and the answer is 201,
      however the save went; otherwise nothing changes and the answer is
      200. The hidden flag is never changed; the `hidden` argument, when
      present, decides the access-point flag. */
  function UpdateNetwork(c: Config, storage: Storage, a: NetworkArgs, flash: FlashOutcome): (r: ConfigReply)
    ensures !AnyNetworkArg(a) ==> r.response.status == 200 && r.config == c && r.storage == storage
    ensures AnyNetworkArg(a) ==> r.response.status == 201 && r.storage == Save(r.config, storage, flash)
    ensures r.config.path == c.path && r.config.mqtt == c.mqtt
    ensures r.config.network.channel == c.network.channel
    ensures r.config.network.hidden == c.network.hidden
    ensures r.config.network.ssid == (if a.ssid.Some? then a.ssid.value else c.network.ssid)
    ensures r.config.network.password == (if a.password.Some? then a.password.value else c.network.password)
    ensures r.config.network.apMode ==
      if a.hidden.Some? then a.hidden.value != 0
      else if a.modeAp.Some? then a.modeAp.value != 0
      else c.network.apMode
  {
    if AnyNetworkArg(a) then
      var c' := ApplyNetworkArgs(c, a);
      ConfigReply(Response(201, NoBody), c', Save(c', storage, flash))
    else
      ConfigReply(Response(200, NoBody), c, storage)
  }

  /** `PATCH mode_ap=1&hidden=0` turns access-point mode off and leaves the
      hidden flag alone, and the stored file records station mode. */
  lemma HiddenArgumentOverwritesApMode(c: Config, storage: Storage, residue: Residue)
    ensures
      var r := UpdateNetwork(c, storage, NetworkArgs(None, None, Some(1), Some(0)), Written);
      !r.config.network.apMode && r.config.network.hidden == c.network.hidden &&
      !Load(c.path, r.storage, residue).network.apMode
  {
    var r := UpdateNetwork(c, storage, NetworkArgs(None, None, Some(1), Some(0)), Written);
    SaveLoadRoundTrip(r.config, storage, residue);
  }

  /** `handleConfigUpdateNetwork` with `hidden` routed to
      `setNetworkHidden`. */
  function UpdateNetworkIntended(c: Config, storage: Storage, a: NetworkArgs, flash: FlashOutcome): (r: ConfigReply)
    ensures !AnyNetworkArg(a) ==> r.response.status == 200 && r.config == c && r.storage == storage
    ensures AnyNetworkArg(a) ==> r.response.status == 201 && r.storage == Save(r.config, storage, flash)
    ensures r.config.path == c.path && r.config.mqtt == c.mqtt
    ensures r.config.network.channel == c.network.channel
    ensures r.config.network.ssid == (if a.ssid.Some? then a.ssid.value else c.network.ssid)
    ensures r.config.network.password == (if a.password.Some? then a.password.value else c.network.password)
    ensures r.config.network.apMode == (if a.modeAp.Some? then a.modeAp.value != 0 else c.network.apMode)
    ensures r.config.network.hidden == (if a.hidden.Some? then a.hidden.value != 0 else c.network.hidden)
  {
    if AnyNetworkArg(a) then
      var c1 := if a.ssid.Some? then SetNetworkSsid(c, a.ssid.value) else c;
      var c2 := if a.password.Some? then SetNetworkPassword(c1, a.password.value) else c1;
      var c3 := if a.modeAp.Some? then SetNetworkModeAp(c2, Truth(a.modeAp.value)) else c2;
      var c4 := if a.hidden.Some? then SetNetworkHidden(c3, Truth(a.hidden.value)) else c3;
      ConfigReply(Response(201, NoBody), c4, Save(c4, storage, flash))
    else
      ConfigReply(Response(200, NoBody), c, storage)
  }

  // ---- The device ----

  /** The device state: heaters with their shared callback slot,
      configuration in memory, flash contents, Wi-Fi role. */
  datatype Device = Device(fleet: Fleet, config: Config, storage: Storage, role: WifiRole)

  /** What the outside world does during one request. */
  datatype Env = Env(flash: FlashOutcome, staConnects: bool)

  /** The state every reachable device is in: three heaters, each showing
      its order's levels and having a real order as default, and the
      configuration bound to its file. */
  predicate Valid(d: Device) {
    |d.fleet.heaters| == ZONE_NR && AllConsistent(d.fleet) && AllDefaultsInRange(d.fleet) &&
    d.config.path == CONFIG_PATH
  }

  /** `setup`: load the configuration, bring the network up, begin the
      three heaters (frost guard, labels "room #1".."room #3"). No callback
      is registered. */
  function Setup(storage: Storage, residue: Residue, staConnects: bool): (d: Device)
    ensures Valid(d) && d.storage == storage
    ensures forall k :: 0 <= k < ZONE_NR ==>
      d.fleet.heaters[k].order == Index(HorsGel) && d.fleet.heaters[k].defaultOrder == Index(HorsGel) &&
      d.fleet.heaters[k].name == ZoneNames[k] && d.fleet.heaters[k].pins == ZonePins[k]
    ensures d.fleet.slot == Empty
    ensures d.config.path == CONFIG_PATH
    ensures var net := SetUpNetwork(Load(CONFIG_PATH, storage, residue), staConnects);
      d.config == net.config && d.role == net.role
    ensures CONFIG_PATH !in storage ==>
      AtDefaults(d.config) &&
      d.role == DefaultAccessPoint
  {
    var config := Load(CONFIG_PATH, storage, residue);
    var net := SetUpNetwork(config, staConnects);
    var heaters := seq(ZONE_NR, k requires 0 <= k < ZONE_NR =>
      BeginNamed(Blank, ZonePins[k].0, ZonePins[k].1, ZoneNames[k], Empty).heater);
    Device(Fleet(heaters, Empty), net.config, storage, net.role)
  }

  /** A request's outcome. */
  datatype Outcome = Outcome(response: Response, device: Device, notified: bool)

  function OnFleet(d: Device, r: HeaterReply): Outcome {
    Outcome(r.response, d.(fleet := r.fleet), r.notified)
  }

  /** The heaters list, the answer of `GET /api/heaters`. */
  function HeatersListResponse(hs: seq<Heater>): (r: Response)
    ensures r.status == 200 && r.body.HeatersBody? && |r.body.heaters| == |hs|
    ensures forall k :: 0 <= k < |hs| ==> r.body.heaters[k] == ViewOf(hs[k])
  {
    Response(200, HeatersBody(ViewsOf(hs)))
  }

  /** The server: each registered route to its handler; anything else is
      404 (`handleNotFound`). The server takes the first route, in order of
      registration, whose method matches and whose path is the request's
      path or a prefix of it followed by "/". So a GET of
      `/api/heaters/<k>` with k outside 1..3 is answered by the
      `/api/heaters` route, while a POST there matches nothing. */
  function Dispatch(d: Device, req: Request, env: Env): (r: Outcome)
    requires Valid(d)
    ensures r.response.status in {200, 201, 400, 404}
    ensures r.device.fleet.slot == d.fleet.slot && r.device.config.path == d.config.path
    ensures req.HealthCheck? ==> r.response == Response(200, Message("true")) && r.device == d
    ensures req.ConfigReload? ==>
      var net := SetUpNetwork(d.config, env.staConnects);
      r.response == Response(200, NoBody) && r.device == d.(config := net.config, role := net.role) && !r.notified
    ensures req.ConfigPatchNetwork? ==>
      var u := UpdateNetwork(d.config, d.storage, req.args, env.flash);
      r.response == u.response && r.device == d.(config := u.config, storage := u.storage) && !r.notified
    ensures req.ConfigShow? ==> r.response == ConfigShowResponse(d.config) && r.device == d
    ensures req.HeatersList? ==> r.response == HeatersListResponse(d.fleet.heaters) && r.device == d
    ensures req.HeaterGet? ==> r.device == d && !r.notified
    ensures req.HeaterGet? && 1 <= req.route <= ZONE_NR ==> r.response == HeaterData(d.fleet, req.route - 1)
    ensures req.HeaterGet? && !(1 <= req.route <= ZONE_NR) ==> r.response == HeatersListResponse(d.fleet.heaters)
    ensures req.HeaterPost? && 1 <= req.route <= ZONE_NR ==>
      r == OnFleet(d, HeaterUpdate(d.fleet, req.route - 1, req.mode))
    ensures req.HeaterPostDefault? && 1 <= req.route <= ZONE_NR ==>
      r == OnFleet(d, HeaterDefault(d.fleet, req.route - 1))
    ensures req.Unrouted? ==> r.response == NotFound && r.device == d && !r.notified
    ensures (req.HeaterPost? || req.HeaterPostDefault?) && !(1 <= req.route <= ZONE_NR) ==>
      r.response == NotFound && r.device == d && !r.notified
    ensures !req.ConfigPatchNetwork? ==> r.device.storage == d.storage
    ensures !req.ConfigReload? ==> r.device.role == d.role
    ensures !req.ConfigReload? && !req.ConfigPatchNetwork? ==> r.device.config == d.config
    ensures r.notified ==> (req.HeaterPost? || req.HeaterPostDefault?) && d.fleet.slot.Registered?
  {
    match req
    case HealthCheck => Outcome(Response(200, Message("true")), d, false)
    case ConfigReload =>
      var net := SetUpNetwork(d.config, env.staConnects);
      Outcome(Response(200, NoBody), d.(config := net.config, role := net.role), false)
    case ConfigPatchNetwork(args) =>
      var u := UpdateNetwork(d.config, d.storage, args, env.flash);
      Outcome(u.response, d.(config := u.config, storage := u.storage), false)
    case ConfigShow => Outcome(ConfigShowResponse(d.config), d, false)
    case HeatersList => Outcome(HeatersListResponse(d.fleet.heaters), d, false)
    case HeaterGet(k) =>
      (match ZoneOfRoute(k)
       case None => Outcome(HeatersListResponse(d.fleet.heaters), d, false)
       case Some(z) => Outcome(HeaterData(d.fleet, z), d, false))
    case HeaterPost(k, mode) =>
      (match ZoneOfRoute(k)
       case None => Outcome(NotFound, d, false)
       case Some(z) => OnFleet(d, HeaterUpdate(d.fleet, z, mode)))
    case HeaterPostDefault(k) =>
      (match ZoneOfRoute(k)
       case None => Outcome(NotFound, d, false)
       case Some(z) => OnFleet(d, HeaterDefault(d.fleet, z)))
    case Unrouted => Outcome(NotFound, d, false)
  }

  /** Every request keeps the device valid. */
  lemma DispatchPreservesValid(d: Device, req: Request, env: Env)
    requires Valid(d)
    ensures Valid(Dispatch(d, req, env).device)
  {
    match req
    case HeaterPost(k, mode) =>
      if ZoneOfRoute(k).Some? {
        var z := ZoneOfRoute(k).value;
        if mode.Some? {
          FleetStepPreservesConsistency(d.fleet, z, mode.value);
        }
      }
    case HeaterPostDefault(k) =>
      if ZoneOfRoute(k).Some? && ZoneOfRoute(k).value > 0 {
        FleetStepPreservesConsistency(d.fleet, ZoneOfRoute(k).value, 0);
      }
    case _ =>
  }

  /** Heater requests neither change the configuration nor touch the
      flash: heater orders are not persisted. */
  lemma HeaterRequestsDoNotPersist(d: Device, req: Request, env: Env)
    requires Valid(d)
    requires req.HeaterGet? || req.HeaterPost? || req.HeaterPostDefault? || req.HeatersList?
    ensures Dispatch(d, req, env).device.config == d.config
    ensures Dispatch(d, req, env).device.storage == d.storage
    ensures Dispatch(d, req, env).device.role == d.role
  {
  }

  /** On every reachable device both label lookups of every heater stay
      within the four labels, so the views the handlers build are the same
      whether the label guard is the source's or the corrected one. */
  lemma ViewsUseSourceLabels(d: Device, stringBytes: nat)
    requires Valid(d) && stringBytes >= 1
    ensures forall k :: 0 <= k < ZONE_NR ==>
      OrderLabelAsWritten(d.fleet.heaters[k].order, stringBytes) == Found(ViewOf(d.fleet.heaters[k]).mode) &&
      OrderLabelAsWritten(d.fleet.heaters[k].defaultOrder, stringBytes) == Found(ViewOf(d.fleet.heaters[k]).defaultMode)
  {
  }

  /** The device after a sequence of requests, each with its environment. */
  function Run(d: Device, trace: seq<(Request, Env)>): (r: Device)
    requires Valid(d)
    ensures Valid(r)
    decreases |trace|
  {
    if |trace| == 0 then d
    else
      DispatchPreservesValid(d, trace[0].0, trace[0].1);
      Run(Dispatch(d, trace[0].0, trace[0].1).device, trace[1..])
  }

  /** From start-up on, whatever the requests, every heater's lines carry
      the levels of its current order. */
  lemma {:induction false} LinesAlwaysMatchOrder(storage: Storage, residue: Residue, staConnects: bool, trace: seq<(Request, Env)>)
    ensures
      var d := Run(Setup(storage, residue, staConnects), trace);
      |d.fleet.heaters| == ZONE_NR &&
      forall k :: 0 <= k < ZONE_NR ==>
        DecodeStates(d.fleet.heaters[k].states) == d.fleet.heaters[k].order &&
        d.fleet.heaters[k].states == Signal(d.fleet.heaters[k].order)
  {
    var d := Run(Setup(storage, residue, staConnects), trace);
    forall k | 0 <= k < ZONE_NR
      ensures DecodeStates(d.fleet.heaters[k].states) == d.fleet.heaters[k].order
    {
      SignalRoundTrip(d.fleet.heaters[k].order, d.fleet.heaters[k].states);
    }
  }

  /** The station fallback is not persisted: a reload that fails to join
      the configured network runs on the defaults in memory and opens the
      default access point, while the flash keeps the station settings, so
      the next start-up reads them again. */
  lemma StationFallbackIsNotPersisted(d: Device, env: Env, residue: Residue)
    requires Valid(d) && !d.config.network.apMode && !env.staConnects
    ensures
      var d' := Dispatch(d, ConfigReload, env).device;
      AtDefaults(d'.config) && d'.config.path == d.config.path &&
      d'.role == DefaultAccessPoint &&
      d'.storage == d.storage &&
      Load(CONFIG_PATH, d'.storage, residue) == Load(CONFIG_PATH, d.storage, residue)
  {
  }

  /** The first heater cannot be read or sent to its default through its
      own routes, although it can be set: `/api/heaters/1` maps to zone 0,
      which the `zone > 0` guard refuses. */
  lemma FirstZoneUnreachable(d: Device, env: Env, mode: int)
    requires Valid(d)
    ensures Dispatch(d, HeaterGet(1), env).response.status == 404
    ensures Dispatch(d, HeaterPostDefault(1), env).response.status == 404
    ensures Dispatch(d, HeaterPost(1, Some(mode)), env).response.status != 404
  {
  }

  /** With the intended bound every route `/api/heaters/1..3` reaches its
      zone, for reading and for going to default. */
  lemma IntendedRoutesReachEveryZone(f: Fleet, k: int)
    requires |f.heaters| == ZONE_NR && 1 <= k <= ZONE_NR
    ensures HeaterDataIntended(f, ZoneOfRoute(k).value).status == 200
    ensures HeaterDefaultIntended(f, ZoneOfRoute(k).value).response.status == 200
    ensures HeaterDataIntended(f, ZoneOfRoute(k).value).body.heater == ViewOf(f.heaters[k - 1])
  {
  }
}

=== FILE: heatrol.dfy ===
/** The pilot-wire heater controller (`Heatrol`).

    A heater is driven through two digital output lines. Each of the four
    pilot-wire orders (comfort, frost guard, off, eco) is encoded as a fixed
    pair of output levels looked up in two tables, one per line. The model
    keeps the C++ object's fields in an immutable record and turns every
    member function into a pure transition. The process-wide change-callback
    slot is the `slot` argument of the transitions; whether the callback was
    invoked is part of each transition's result. */
module Heatrol {
  import opened Common

  /** Number of orders (`ORDER_NB`). */
  const ORDER_NB: int := 4

  /** The orders of `hzOrder_t`, in declaration order. */
  datatype Order = Confort | HorsGel | Arret | Eco

  /** The integer value the C++ enum gives each order. */
  function Index(o: Order): (i: int)
    ensures 0 <= i < ORDER_NB
  {
    match o
    case Confort => 0
    case HorsGel => 1
    case Arret => 2
    case Eco => 3
  }

  /** The order an integer denotes, if any. */
  function OrderOf(i: int): (r: Option<Order>)
    ensures r.Some? <==> 0 <= i < ORDER_NB
    ensures r.Some? ==> Index(r.value) == i
  {
    if i == 0 then Some(Confort)
    else if i == 1 then Some(HorsGel)
    else if i == 2 then Some(Arret)
    else if i == 3 then Some(Eco)
    else None
  }

  /** The enum has exactly the four orders 0..3: `Index` and `OrderOf` are
      inverse bijections between `Order` and [0, ORDER_NB). */
  lemma OrderEnumeration(o: Order, i: int)
    ensures OrderOf(Index(o)) == Some(o)
    ensures 0 <= i < ORDER_NB ==> OrderOf(i).Some? && Index(OrderOf(i).value) == i
  {
  }

  /** The guard `order >= 0 && order < ORDER_NB`. */
  predicate InRange(o: int) {
    0 <= o < ORDER_NB
  }

  /** The two logic levels written to a line (`LOW`, `HIGH`). */
  datatype Level = Low | High

  /** Level of the first line for each order (`WavePlus`). */
  const WavePlus: seq<Level> := [Low, High, Low, High]
  /** Level of the second line for each order (`WaveMinus`). */
  const WaveMinus: seq<Level> := [Low, Low, High, High]

  /** The pair of levels the tables give an order. */
  function Signal(o: int): (Level, Level)
    requires InRange(o)
  {
    (WavePlus[o], WaveMinus[o])
  }

  /** The pilot-wire encoding written per order, independently of the
      tables: comfort drives nothing, eco drives both lines, frost guard
      only the first and off only the second. */
  function PilotWire(o: Order): (Level, Level) {
    match o
    case Confort => (Low, Low)
    case HorsGel => (High, Low)
    case Arret => (Low, High)
    case Eco => (High, High)
  }

  lemma SignalIsPilotWire(o: Order)
    ensures Signal(Index(o)) == PilotWire(o)
  {
  }

  function Bit(l: Level): int {
    if l == High then 1 else 0
  }

  /** Reads an order back from the two line levels: the first line is the
      low bit and the second line the high bit of the order's value. */
  function DecodeStates(s: (Level, Level)): (o: int)
    ensures InRange(o)
  {
    Bit(s.0) + 2 * Bit(s.1)
  }

  /** The encoding is a bijection between the four orders and the four
      level pairs, so the lines always determine the order. */
  lemma SignalRoundTrip(o: int, s: (Level, Level))
    ensures InRange(o) ==> DecodeStates(Signal(o)) == o
    ensures Signal(DecodeStates(s)) == s
  {
  }

  /** The fields of one `Heatrol` object. `order` and `defaultOrder` hold
      the raw enum value, which a cast may put out of range. */
  datatype Heater = Heater(
    order: int,
    defaultOrder: int,
    pins: (uint8, uint8),
    states: (Level, Level),
    name: string)

  /** A heater before `begin`: the firmware's heaters are a global array,
      so the constructor (which sets nothing) leaves them zero-initialised. */
  const Blank: Heater := Heater(0, 0, (0, 0), (Low, Low), "")

  /** The invariant of the component: the order is a real order and the
      lines carry its table entry. */
  predicate Consistent(h: Heater) {
    InRange(h.order) && h.states == Signal(h.order)
  }

  lemma BlankIsConsistent()
    ensures Consistent(Blank)
  {
  }

  /** Pins, name and default order agree. */
  predicate SameSetup(a: Heater, b: Heater) {
    a.pins == b.pins && a.name == b.name && a.defaultOrder == b.defaultOrder
  }

  /** The process-wide callback slot (`onchange_cb`), shared by every
      heater. A registered callback is identified by an opaque handle. */
  datatype Slot = Empty | Registered(handler: nat)

  /** The heater after a transition, and whether the callback ran. */
  datatype Step = Step(heater: Heater, notified: bool)

  /** `setState`: the only place the recorded line levels are written. */
  function SetState(h: Heater, plus: Level, minus: Level): (r: Heater)
    ensures r.states == (plus, minus)
    ensures r.order == h.order && SameSetup(r, h)
  {
    h.(states := (plus, minus))
  }

  /** `setOrder`: an in-range order is stored and its levels are driven;
      an out-of-range order is ignored. In both cases a registered
      callback is invoked. */
  function SetOrder(h: Heater, o: int, slot: Slot): (r: Step)
    ensures r.notified <==> slot.Registered?
    ensures InRange(o) ==> r.heater.order == o && Consistent(r.heater) && SameSetup(r.heater, h)
    ensures !InRange(o) ==> r.heater == h
  {
    var h' := if InRange(o) then SetState(h.(order := o), WavePlus[o], WaveMinus[o]) else h;
    Step(h', slot.Registered?)
  }

  /** Every order reached through `setOrder` shows its pilot-wire levels. */
  lemma SetOrderDrivesPilotWire(h: Heater, o: Order, slot: Slot)
    ensures SetOrder(h, Index(o), slot).heater.order == Index(o)
    ensures SetOrder(h, Index(o), slot).heater.states == PilotWire(o)
  {
  }

  /** `setOrder` keeps the invariant, whatever order it is given. */
  lemma SetOrderPreservesConsistency(h: Heater, o: int, slot: Slot)
    requires Consistent(h)
    ensures Consistent(SetOrder(h, o, slot).heater)
  {
  }

  /** `setDefaultOrder`: stores the default only; nothing is driven and no
      callback runs (the result is not a `Step`). */
  function SetDefaultOrder(h: Heater, o: int): (r: Heater)
    ensures r.defaultOrder == o
    ensures r.order == h.order && r.states == h.states && r.pins == h.pins && r.name == h.name
  {
    h.(defaultOrder := o)
  }

  /** `setName`: stores the label only. */
  function SetName(h: Heater, name: string): (r: Heater)
    ensures r.name == name
    ensures r.order == h.order && r.states == h.states && r.pins == h.pins && r.defaultOrder == h.defaultOrder
  {
    h.(name := name)
  }

  /** `isDefaultOrder`. A heater at its default shows the default's label
      as its current label. */
  predicate IsDefaultOrder(h: Heater)
    ensures IsDefaultOrder(h) ==> GetOrderLabel(h) == GetDefaultOrderLabel(h)
  {
    h.order == h.defaultOrder
  }

  /** `toDefault`: `setOrder(defaultOrder)`. */
  function ToDefault(h: Heater, slot: Slot): (r: Step)
    ensures r.notified <==> slot.Registered?
    ensures InRange(h.defaultOrder) ==>
      r.heater.order == h.defaultOrder && IsDefaultOrder(r.heater) &&
      Consistent(r.heater) && SameSetup(r.heater, h)
    ensures !InRange(h.defaultOrder) ==> r.heater == h
  {
    SetOrder(h, h.defaultOrder, slot)
  }

  /** On a consistent heater, the heater is at its default after
      `toDefault` exactly when the default is a real order. */
  lemma ToDefaultReachesDefault(h: Heater, slot: Slot)
    requires Consistent(h)
    ensures IsDefaultOrder(ToDefault(h, slot).heater) <==> InRange(h.defaultOrder)
  {
  }

  /** On a consistent heater, `isDefaultOrder()` holds exactly when the
      default is a real order and `toDefault` would leave the heater as it
      is. */
  lemma IsDefaultOrderMeansToDefaultIsIdle(h: Heater, slot: Slot)
    requires Consistent(h)
    ensures IsDefaultOrder(h) <==> InRange(h.defaultOrder) && ToDefault(h, slot).heater == h
  {
  }

  /** `begin(pin1, pin2, defaultOrder, name)`: records pins, name and
      default, then goes to the default. */
  function Begin(h: Heater, pin1: uint8, pin2: uint8, defaultOrder: int, name: string, slot: Slot): (r: Step)
    ensures r.heater.pins == (pin1, pin2) && r.heater.name == name && r.heater.defaultOrder == defaultOrder
    ensures r.notified <==> slot.Registered?
    ensures InRange(defaultOrder) ==> r.heater.order == defaultOrder && Consistent(r.heater)
    ensures !InRange(defaultOrder) ==> r.heater.order == h.order && r.heater.states == h.states
  {
    var configured := SetDefaultOrder(SetName(h.(pins := (pin1, pin2)), name), defaultOrder);
    ToDefault(configured, slot)
  }

  /** The label the overloads use when none is given. */
  const DefaultName: string := "room"

  /** `begin(pin1, pin2, defaultOrder)`: label "room". */
  function BeginWithOrder(h: Heater, pin1: uint8, pin2: uint8, defaultOrder: int, slot: Slot): (r: Step)
    ensures r.heater.name == "room" && r.heater.pins == (pin1, pin2) && r.heater.defaultOrder == defaultOrder
    ensures r.notified <==> slot.Registered?
    ensures InRange(defaultOrder) ==> r.heater.order == defaultOrder && Consistent(r.heater)
    ensures !InRange(defaultOrder) ==> r.heater.order == h.order && r.heater.states == h.states
  {
    Begin(h, pin1, pin2, defaultOrder, DefaultName, slot)
  }

  /** `begin(pin1, pin2, name)`: default order frost guard. */
  function BeginNamed(h: Heater, pin1: uint8, pin2: uint8, name: string, slot: Slot): (r: Step)
    ensures r.heater.name == name && r.heater.pins == (pin1, pin2)
    ensures r.heater.order == Index(HorsGel) && r.heater.defaultOrder == Index(HorsGel)
    ensures r.heater.states == (High, Low)
    ensures r.notified <==> slot.Registered?
  {
    Begin(h, pin1, pin2, Index(HorsGel), name, slot)
  }

  /** `begin(pin1, pin2)`: default order frost guard, label "room". */
  function BeginPlain(h: Heater, pin1: uint8, pin2: uint8, slot: Slot): (r: Step)
    ensures r.heater.name == "room" && r.heater.pins == (pin1, pin2)
    ensures r.heater.order == Index(HorsGel) && r.heater.defaultOrder == Index(HorsGel)
    ensures r.heater.states == (High, Low)
    ensures r.notified <==> slot.Registered?
  {
    Begin(h, pin1, pin2, Index(HorsGel), DefaultName, slot)
  }

  /** Display labels, indexed by order (`Labels` in `orderLabelFor`). */
  const Labels: seq<string> := ["Confort", "Hors gel", "Arr\U{EA}t", "Eco"]

  /** `orderLabelFor`, with the bound check against the number of labels:
      a real order gets its label, anything else the empty string. */
  function OrderLabel(o: int): (r: string)
    ensures r != "" <==> InRange(o)
    ensures InRange(o) ==> r == Labels[o]
  {
    if InRange(o) then Labels[o] else ""
  }

  /** Distinct orders have distinct labels. */
  lemma LabelsIdentifyOrders(i: int, j: int)
    requires InRange(i) && InRange(j)
    ensures OrderLabel(i) == OrderLabel(j) ==> i == j
  {
  }

  /** What the source's lookup does with an order. */
  datatype LabelLookup = Found(text: string) | Fallback | PastEnd

  /** `orderLabelFor` as written: the guard compares the order with
      `sizeof(Labels)`, the size in bytes of four `String` objects of
      `stringBytes` bytes each (C++ objects take at least one byte), rather
      than with the element count.
      `PastEnd` stands for the out-of-bounds read the guard lets through. */
  function OrderLabelAsWritten(o: int, stringBytes: nat): (r: LabelLookup)
    requires stringBytes >= 1
    ensures r.PastEnd? <==> ORDER_NB <= o < ORDER_NB * stringBytes
    ensures r.Fallback? <==> !(0 <= o < ORDER_NB * stringBytes)
    ensures r.Found? <==> InRange(o)
    ensures InRange(o) ==> r == Found(OrderLabel(o))
  {
    if o >= 0 && o < |Labels| * stringBytes then
      if o < |Labels| then Found(Labels[o]) else PastEnd
    else
      Fallback
  }

  /** A `String` takes more than one byte, so the order value 4 passes the
      guard and is used to index past the end of the four labels. */
  lemma LabelGuardAdmitsPastEnd(stringBytes: nat)
    requires stringBytes > 1
    ensures OrderLabelAsWritten(ORDER_NB, stringBytes) == PastEnd
    ensures OrderLabel(ORDER_NB) == ""
  {
  }

  /** `getOrderLabel`, through the corrected lookup. On a consistent
      heater it is the source's result (`CurrentLabelIsSafe`). */
  function GetOrderLabel(h: Heater): (r: string)
    ensures r != "" <==> InRange(h.order)
    ensures InRange(h.order) ==> r == Labels[h.order]
  {
    OrderLabel(h.order)
  }

  /** `getDefaultOrderLabel`, through the corrected lookup. */
  function GetDefaultOrderLabel(h: Heater): (r: string)
    ensures r != "" <==> InRange(h.defaultOrder)
    ensures InRange(h.defaultOrder) ==> r == Labels[h.defaultOrder]
  {
    OrderLabel(h.defaultOrder)
  }

  /** `getDefaultOrderLabel` as written: the default goes through the
      `sizeof(Labels)` guard, so a default in [4, 4 * sizeof(String))
      reads past the labels. */
  function GetDefaultOrderLabelAsWritten(h: Heater, stringBytes: nat): (r: LabelLookup)
    requires stringBytes >= 1
    ensures r.Found? <==> InRange(h.defaultOrder)
    ensures InRange(h.defaultOrder) ==> r == Found(Labels[h.defaultOrder])
    ensures r.PastEnd? <==> ORDER_NB <= h.defaultOrder < ORDER_NB * stringBytes
  {
    OrderLabelAsWritten(h.defaultOrder, stringBytes)
  }

  /** The default-order setter accepts any value, and the getter as written
      then reads past the labels where the corrected one returns "". */
  lemma DefaultLabelReadsPastEnd(h: Heater, stringBytes: nat)
    requires stringBytes > 1
    ensures GetDefaultOrderLabelAsWritten(SetDefaultOrder(h, ORDER_NB), stringBytes) == PastEnd
    ensures GetDefaultOrderLabel(SetDefaultOrder(h, ORDER_NB)) == ""
  {
  }

  /** The current order's label never hits the faulty guard: on a
      consistent heater the source's lookup and the corrected one agree.
      Only the default order's label can reach it. */
  lemma CurrentLabelIsSafe(h: Heater, stringBytes: nat)
    requires Consistent(h) && stringBytes >= 1
    ensures GetOrderLabel(h) != ""
    ensures OrderLabelAsWritten(h.order, stringBytes) == Found(GetOrderLabel(h))
  {
  }

  /** All heaters of the program together with the one callback slot they
      share. */
  datatype Fleet = Fleet(heaters: seq<Heater>, slot: Slot)

  /** `onChange` called on heater `i`: it replaces the callback for every
      heater, whichever one it was called on. Passing a null function
      (`Empty`) clears the slot. */
  function OnChange(f: Fleet, i: int, s: Slot): (r: Fleet)
    requires 0 <= i < |f.heaters|
    ensures r.heaters == f.heaters
    ensures r.slot == s
  {
    f.(slot := s)
  }

  /** The result of a transition on one heater of the fleet. */
  datatype FleetStep = FleetStep(fleet: Fleet, notified: bool)

  /** Replace heater `i` by the outcome of a step. */
  function Apply(f: Fleet, i: int, s: Step): (r: FleetStep)
    requires 0 <= i < |f.heaters|
    ensures |r.fleet.heaters| == |f.heaters| && r.fleet.slot == f.slot
    ensures r.fleet.heaters[i] == s.heater && r.notified == s.notified
    ensures forall k :: 0 <= k < |f.heaters| && k != i ==> r.fleet.heaters[k] == f.heaters[k]
  {
    FleetStep(f.(heaters := f.heaters[i := s.heater]), s.notified)
  }

  /** `heaters[i].setOrder(o)`. */
  function FleetSetOrder(f: Fleet, i: int, o: int): (r: FleetStep)
    requires 0 <= i < |f.heaters|
  {
    Apply(f, i, SetOrder(f.heaters[i], o, f.slot))
  }

  /** `heaters[i].toDefault()`. */
  function FleetToDefault(f: Fleet, i: int): (r: FleetStep)
    requires 0 <= i < |f.heaters|
  {
    Apply(f, i, ToDefault(f.heaters[i], f.slot))
  }

  /** Registering through one heater makes every other heater's order
      changes, valid or not, report to that callback. */
  lemma CallbackSlotIsShared(f: Fleet, i: int, j: int, handler: nat, o: int)
    requires 0 <= i < |f.heaters| && 0 <= j < |f.heaters|
    ensures OnChange(f, i, Registered(handler)) == OnChange(f, j, Registered(handler))
    ensures FleetSetOrder(OnChange(f, i, Registered(handler)), j, o).notified
    ensures !FleetSetOrder(OnChange(f, i, Empty), j, o).notified
  {
  }

  /** Every heater of the fleet satisfies the invariant. */
  predicate AllConsistent(f: Fleet) {
    forall k :: 0 <= k < |f.heaters| ==> Consistent(f.heaters[k])
  }

  /** Every heater of the fleet has one of the four orders as default. */
  predicate AllDefaultsInRange(f: Fleet) {
    forall k :: 0 <= k < |f.heaters| ==> InRange(f.heaters[k].defaultOrder)
  }

  /** `setOrder` and `toDefault` keep every heater consistent and never
      change a default. */
  lemma FleetStepPreservesConsistency(f: Fleet, i: int, o: int)
    requires 0 <= i < |f.heaters| && AllConsistent(f)
    ensures AllConsistent(FleetSetOrder(f, i, o).fleet)
    ensures AllConsistent(FleetToDefault(f, i).fleet)
    ensures AllDefaultsInRange(f) ==>
      AllDefaultsInRange(FleetSetOrder(f, i, o).fleet) && AllDefaultsInRange(FleetToDefault(f, i).fleet)
  {
    SetOrderPreservesConsistency(f.heaters[i], o, f.slot);
    SetOrderPreservesConsistency(f.heaters[i], f.heaters[i].defaultOrder, f.slot);
  }
}
